=== FILE: README.md ===
# ModularAuth configuration resolver, modelled in Dafny

ModularAuth keeps its settings in one record with four fields: `secret_key`,
`session_timeout`, `log_level` and `modules`. A new record holds fixed defaults.
Loading a YAML file overwrites those defaults in five steps:

1. The file's top-level mapping is read. An empty parse counts as `{}`.
2. The active environment name is chosen: the first of `MODULAR_AUTH_ENV`,
   `RACK_ENV` and `RAILS_ENV` that is set, otherwise `development`.
3. The file's `default` section and the section of the active environment are
   looked up.
4. The two sections are combined by a right-biased recursive deep merge.
5. The merged mapping is applied to the record, one field at a time.

This project models those steps with immutable values and pure functions,
and proves the properties the code promises.

Modules:

- `Values` (`values.dfy`): the parsed document as a tree `Value`
  (`Nil`, `Bool`, `Int`, `Str`, `Sym`, `Sequence`, `Mapping`). It also holds
  the Ruby conversions used on `log_level`: `to_s` and ASCII `downcase`.
- `Merge` (`merge.dfy`): `deep_merge_hash`, written twice.
  - `DeepMerge` is a declarative definition, key by key.
  - `DeepMergeHash` is a method that follows the Ruby code: copy the base, then
    loop over the override's keys. Its contract proves it equal to `DeepMerge`.
- `Environment` (`environment.dfy`): how the active environment name is chosen.
  The process environment is passed in as a `map<string, string>`.
- `Configuration` (`configuration.dfy`): the `Config` record and its defaults,
  `apply_hash!` (`ApplyHash`), section lookup, and `load_from_file`
  (`LoadFromFile`). Loading returns a `Result`; a failed load leaves the
  caller's record as it was.
- `Wrappers` (`wrappers.dfy`): the `Result` type.

The loader's inputs stand in for things the model does not compute:

- `fileExists` stands for `File.exist?`.
- `doc` stands for the result of ERB expansion followed by `YAML.safe_load`.
- `env` stands for `ENV`.
- `inspect` stands for Ruby's `inspect`. `to_s` uses it when `log_level` holds
  a sequence or a mapping.

The code does not restrict or filter these values:

- `log_level` is not limited to a fixed set of levels. Any value is
  converted with `to_s` and lowercased.
- `modules` is stored as it is whenever it is a mapping. Values inside it
  that are not mappings are kept, not dropped.
- `validate!` and `load_from_env` have empty bodies, so nothing is validated
  and no environment variable overrides a setting.

## Model

| member | source | states |
|---|---|---|
| `Configuration.NewConfig` | lib/modular_auth/configuration.rb:8-13 | a new record has no secret key, `session_timeout` 3600, `log_level` `info` (already lowercase) and empty `modules` |
| `Environment.FirstSet` | lib/modular_auth/configuration.rb:28 | the result is the value of the first listed variable that is set, even an empty one; it is the fallback when none is set; it is always the fallback or the value of some listed variable |
| `Environment.ActiveEnvName` | lib/modular_auth/configuration.rb:28 | the name is `MODULAR_AUTH_ENV` if set, else `RACK_ENV` if set, else `RAILS_ENV` if set, else `development` |
| `Environment.ActiveEnvNameIgnoresOtherVariables` | lib/modular_auth/configuration.rb:28 | two environments that agree on the three selection variables give the same name |
| `Configuration.TopLevel` | lib/modular_auth/configuration.rb:22-26 | a `nil` or `false` parse becomes `{}`; a mapping is used as it is; any other document is a load error |
| `Configuration.Section` | lib/modular_auth/configuration.rb:29-30 | a missing, `nil` or `false` section becomes `{}`; a mapping section is used as it is; any other section value is a load error naming the section |
| `Merge.DeepMerge` | lib/modular_auth/configuration.rb:47-57 | the reference definition of the merge, key by key; the result's keys are the union of both sides' keys |
| `Merge.DeepMergeHash` | lib/modular_auth/configuration.rb:47-57 | the copy-then-loop merge of `deep_merge_hash` builds exactly the declarative deep merge, and its keys are the union of both sides' keys |
| `Merge.DeepMergeSpec` | lib/modular_auth/configuration.rb:47-57 | the merge's keys are the union of both sides; a key only in the base keeps the base value; an override key holds the override value unless both sides hold mappings; mappings on both sides are merged recursively |
| `Merge.MergeEmptyOverride` | lib/modular_auth/configuration.rb:47-57 | merging with an empty override returns the base unchanged |
| `Merge.MergeEmptyBase` | lib/modular_auth/configuration.rb:47-57 | merging over an empty base returns the override |
| `Merge.MergeShallow` | lib/modular_auth/configuration.rb:49-54 | when no key holds mappings on both sides, the deep merge equals the shallow right-biased union |
| `Merge.MergeIdempotent` | lib/modular_auth/configuration.rb:47-57 | merging a document with itself returns it unchanged, at every depth |
| `Merge.MergeOverlaysOverride` | lib/modular_auth/configuration.rb:49-54 | the override wins at every depth: every leaf of the override appears unchanged at the same path in the result, including scalars, sequences, `nil` and type mismatches |
| `Merge.MergeNestedExample` | lib/modular_auth/configuration.rb:50-51 | `{a: {x: 1, y: 2}}` merged with `{a: {y: 9}}` gives `{a: {x: 1, y: 9}}` |
| `Values.Downcase` | lib/modular_auth/configuration.rb:62 | lowercasing keeps the length, maps each character through ASCII lowercasing, and leaves no upper-case letter |
| `Values.DowncaseFixesLowercase` | lib/modular_auth/configuration.rb:62 | lowercasing leaves a string unchanged exactly when the string has no upper-case letter |
| `Values.DowncaseIdempotent` | lib/modular_auth/configuration.rb:62 | lowercasing twice gives the same result as lowercasing once |
| `Values.IntToString` | lib/modular_auth/configuration.rb:62 | an integer `log_level` is rendered as `Integer#to_s` does: at least one decimal digit, no leading zero, a leading minus sign exactly when negative, and the digits read back as the magnitude |
| `Values.ToS` | lib/modular_auth/configuration.rb:62 | `to_s` of a `log_level` value: a string or symbol gives its text, `nil` gives the empty string, `true`/`false` give `"true"`/`"false"`, an integer gives its decimal text, a sequence or mapping gives its `inspect` rendering |
| `Values.DecimalRoundTrip` | lib/modular_auth/configuration.rb:62 | reading back the decimal digits of a natural number gives that number |
| `Configuration.ApplyHash` | lib/modular_auth/configuration.rb:59-64 | `secret_key`, `session_timeout` and `log_level` change only when their key is present and not `nil`; `log_level` becomes the lowercased `to_s`; `modules` changes only when its value is a mapping; every other field keeps its prior value; a lowercase `log_level` stays lowercase |
| `Configuration.ApplyEmptyHash` | lib/modular_auth/configuration.rb:59-64 | applying an empty document leaves the record unchanged |
| `Configuration.ApplyHashIgnoresOtherKeys` | lib/modular_auth/configuration.rb:59-64 | keys other than the four field names have no effect |
| `Configuration.ApplyHashIdempotent` | lib/modular_auth/configuration.rb:59-64 | applying the same document twice gives the same result as applying it once |
| `Configuration.MergedSections` | lib/modular_auth/configuration.rb:26-31 | the merged document exists exactly when the document and both the `default` and active sections are mappings or empty; it is then the deep merge of the two sections, with both sections' keys; otherwise the error names the malformed document or section |
| `Configuration.LoadFromFile` | lib/modular_auth/configuration.rb:16-35 | a missing file fails with file-not-found and nothing else does; an empty document leaves the record unchanged; a top-level document that is neither a mapping nor empty is an error in this model (see Left out); a successful load keeps `log_level` lowercase |
| `Configuration.LoadEnvironmentSectionWins` | lib/modular_auth/configuration.rb:28-33 | when both sections are well formed, the load succeeds. For `secret_key`, `session_timeout` and `log_level`: a non-nil, non-mapping value in the active section wins over `default`. If the active section does not mention the field, `default`'s value is taken (`log_level` lowercased). An explicit `nil` in the active section keeps the record's prior value and hides `default`. If neither section sets the field, the prior value is kept. For `modules`: it is taken from the active section when that is a mapping and `default`'s is not, from `default` when the active section does not mention it, and is the deep merge of the two mappings when both sections hold one. The prior `modules` is kept when the active section's value is not a mapping, and when neither section supplies a mapping |
| `Configuration.LoadExplicitNilHidesDefault` | lib/modular_auth/configuration.rb:49-62 | `default: {secret_key: "x"}` with `production: {secret_key: ~}` and `production` active leaves a fresh record unchanged, secret key still unset |
| `Configuration.LoadMergesModuleSettings` | lib/modular_auth/configuration.rb:50-51 | `default: {modules: {a: {}}}` with `production: {modules: {b: {}}}` and `production` active gives `modules == {a: {}, b: {}}`: module settings from both sections are merged, not replaced |
| `Configuration.LoadWithDefaultAsEnvironment` | lib/modular_auth/configuration.rb:28-33 | when the active name is `default`, the `default` section is applied as it stands |
| `Configuration.LoadTwiceIsLoadOnce` | lib/modular_auth/configuration.rb:16-35 | loading the same file again after a successful load changes nothing |
| `Configuration.LoadScenario` | lib/modular_auth/configuration.rb:16-35 | with `default: {session_timeout: 3600}`, `production: {secret_key: "abc"}` and `production` active, the load gives `session_timeout` 3600, `secret_key` `abc` and `log_level` `info` |

## Left out

- File I/O: `File.exist?` and `File.read` are replaced by the `fileExists` flag and the `doc` input. The `ArgumentError` message text is not modelled; only the path it carries is.
- ERB evaluation and `YAML.safe_load` (configuration.rb:21-26) are left out. ERB runs arbitrary Ruby, and the YAML parser is a library. Their errors, including disallowed tags, are not modelled.
- YAML floats, dates and non-string mapping keys are not in `Value`. An alias that only shares a subtree is held as a copy of that subtree. A recursive alias, meaning a mapping that contains itself, cannot be a `Value`. If such mappings stood at the same path on both sides, `deep_merge_hash` (configuration.rb:50-51) would recurse without end; the model does not cover that case.
- `log_level` is kept as the text of its symbol. Document values keep the String/Symbol distinction (`Str`, `Sym`). Symbol mapping keys are not modelled.
- Hash insertion order is dropped. Mappings are unordered, so the `inspect` rendering of a sequence or mapping `log_level` is the `inspect` parameter.
- Values.Downcase: lowercases ASCII letters only. Ruby's `downcase` also folds non-ASCII letters by Unicode rules.
- Configuration.TopLevel: a top-level document that is neither a mapping nor `nil`/`false` fails the same way in every case. Ruby's duck typing does not always fail. For a string document, `String#[]` does a substring lookup.
- Configuration.LoadFromFile: a top-level document that is neither a mapping nor `nil`/`false` is reported as `MalformedDocument`. In Ruby a string or symbol document goes through `String#[]`: a file whose whole content is `hello` loads successfully and changes nothing, and a string containing a section name as a substring takes other paths.
- Configuration.Section: a non-mapping truthy section fails the same way in every case. In Ruby, the outcome depends on the type. An array environment section is walked by `each` and merges its elements as keys. A string section can assign fields through `String#[]` before `key?` raises. The model does not reproduce these partial effects.
- `load_from_env` and `validate!` (configuration.rb:38-43) are not modelled, because their bodies are empty. The repository's test expects `validate!` to raise `MissingConfigurationError`, but the code does not raise it.
- `lib/modular_auth/errors.rb` is not modelled. It is an exception hierarchy whose only logic is `to_s` formatting through `inspect`.
- `lib/modular_auth.rb` is not modelled. It holds the memoised global configuration and the `configure` block, which are process wiring.
- The model does not mutate anything, so "the base is never mutated" (configuration.rb:48) holds by construction.

=== FILE: configuration.dfy ===
/**
 The settings record of the authentication library and the way a
 configuration file is folded into it: defaults, section selection, the
 deep merge of `default` with the active environment's section, and the
 field-by-field application of the merged document.
 */
module Configuration {
  import opened Values
  import opened Wrappers
  import opened Merge
  import opened Environment

  /** The four settings. `secret_key` and `session_timeout` keep whatever
      node the document held; `log_level` is kept as the text of its symbol. */
  datatype Config = Config(secretKey: Value, sessionTimeout: Value, logLevel: string, modules: Document)

  const DefaultSessionTimeout: int := 3600
  const DefaultLogLevel: string := "info"

  /** A fresh configuration: no secret key, a one-hour session, level `info`
      and no module settings. */
  function NewConfig(): (c: Config)
    ensures c.secretKey == Nil
    ensures c.sessionTimeout == Int(3600)
    ensures c.logLevel == "info" && IsLowercase(c.logLevel)
    ensures c.modules == map[]
  {
    Config(Nil, Int(DefaultSessionTimeout), DefaultLogLevel, map[])
  }

  // ---------------------------------------------------------------------------
  // Folding the merged document into the record, one statement per field
  // ---------------------------------------------------------------------------

  function SetSecretKey(c: Config, h: Document): Config {
    if Present(h, "secret_key") then c.(secretKey := h["secret_key"]) else c
  }

  function SetSessionTimeout(c: Config, h: Document): Config {
    if Present(h, "session_timeout") then c.(sessionTimeout := h["session_timeout"]) else c
  }

  function SetLogLevel(c: Config, h: Document, inspect: Value -> string): Config {
    if Present(h, "log_level") then c.(logLevel := Downcase(ToS(h["log_level"], inspect))) else c
  }

  function SetModules(c: Config, h: Document): Config {
    if "modules" in h && h["modules"].Mapping? then c.(modules := h["modules"].entries) else c
  }

  /** Applies a merged document to the record. A field changes only when its
      key is present with a non-nil value (for `modules`: a mapping value);
      every other field keeps the value it had. */
  function ApplyHash(c: Config, h: Document, inspect: Value -> string): (r: Config)
    ensures Present(h, "secret_key") ==> r.secretKey == h["secret_key"]
    ensures !Present(h, "secret_key") ==> r.secretKey == c.secretKey
    ensures Present(h, "session_timeout") ==> r.sessionTimeout == h["session_timeout"]
    ensures !Present(h, "session_timeout") ==> r.sessionTimeout == c.sessionTimeout
    ensures Present(h, "log_level") ==> r.logLevel == Downcase(ToS(h["log_level"], inspect))
    ensures "log_level" in h && h["log_level"].Str? ==> r.logLevel == Downcase(h["log_level"].s)
    ensures "log_level" in h && h["log_level"].Sym? ==> r.logLevel == Downcase(h["log_level"].name)
    ensures !Present(h, "log_level") ==> r.logLevel == c.logLevel
    ensures "modules" in h && h["modules"].Mapping? ==> r.modules == h["modules"].entries
    ensures !("modules" in h && h["modules"].Mapping?) ==> r.modules == c.modules
    ensures IsLowercase(c.logLevel) ==> IsLowercase(r.logLevel)
  {
    SetModules(SetLogLevel(SetSessionTimeout(SetSecretKey(c, h), h), h, inspect), h)
  }

  /** The keys the record reads; all others in the document are ignored. */
  const FieldKeys: set<string> := {"secret_key", "session_timeout", "log_level", "modules"}

  /** Applying an empty document changes nothing. */
  lemma ApplyEmptyHash(c: Config, inspect: Value -> string)
    ensures ApplyHash(c, map[], inspect) == c
  {
  }

  /** Keys other than the four field names have no effect. */
  lemma ApplyHashIgnoresOtherKeys(c: Config, h: Document, inspect: Value -> string)
    ensures ApplyHash(c, h, inspect) == ApplyHash(c, map k | k in h && k in FieldKeys :: h[k], inspect)
  {
  }

  /** Applying the same document twice is applying it once. */
  lemma ApplyHashIdempotent(c: Config, h: Document, inspect: Value -> string)
    ensures ApplyHash(ApplyHash(c, h, inspect), h, inspect) == ApplyHash(c, h, inspect)
  {
  }

  // ---------------------------------------------------------------------------
  // Loading a file
  // ---------------------------------------------------------------------------

  /** Why a load fails. A missing file is the `ArgumentError` of `load_from_file`; the
      other two stand for the errors Ruby raises when the document or a
      section it reads is neither a mapping nor empty. */
  datatype LoadError =
    | FileNotFound(path: string)
    | MalformedDocument
    | MalformedSection(name: string)

  /** The parsed document as a mapping; an empty parse (`nil` or `false`)
      counts as an empty mapping. */
  function TopLevel(doc: Value): (r: Result<Document, LoadError>)
    ensures r.Success? <==> Falsy(doc) || doc.Mapping?
    ensures r.Success? && doc.Mapping? ==> r.value == doc.entries
    ensures r.Success? && !doc.Mapping? ==> r.value == map[]
    ensures r.Failure? ==> r.error == MalformedDocument
  {
    match doc
    case Mapping(entries) => Success(entries)
    case _ => if Falsy(doc) then Success(map[]) else Failure(MalformedDocument)
  }

  /** A named section; a missing, `nil` or `false` section counts as an
      empty mapping. */
  function Section(top: Document, name: string): (r: Result<Document, LoadError>)
    ensures r.Success? <==> name !in top || Falsy(top[name]) || top[name].Mapping?
    ensures r.Success? && name in top && top[name].Mapping? ==> r.value == top[name].entries
    ensures r.Success? && !(name in top && top[name].Mapping?) ==> r.value == map[]
    ensures r.Failure? ==> r.error == MalformedSection(name)
  {
    if name !in top then Success(map[])
    else match top[name]
      case Mapping(entries) => Success(entries)
      case _ => if Falsy(top[name]) then Success(map[]) else Failure(MalformedSection(name))
  }

  /** The merged document a file contributes: `default` overlaid with the
      section of the active environment. */
  function MergedSections(doc: Value, env: map<string, string>): (r: Result<Document, LoadError>)
    ensures var t := TopLevel(doc);
            r.Success? <==> && t.Success?
                            && Section(t.value, "default").Success?
                            && Section(t.value, ActiveEnvName(env)).Success?
    ensures r.Success? ==> var t := TopLevel(doc).value;
            r.value.Keys == Section(t, "default").value.Keys + Section(t, ActiveEnvName(env)).value.Keys
    ensures r.Success? ==> var t := TopLevel(doc).value;
            r.value == DeepMerge(Section(t, "default").value, Section(t, ActiveEnvName(env)).value)
    ensures r.Failure? ==> r.error == MalformedDocument || r.error == MalformedSection("default")
                           || r.error == MalformedSection(ActiveEnvName(env))
  {
    var top :- TopLevel(doc);
    var defaults :- Section(top, "default");
    var perEnv :- Section(top, ActiveEnvName(env));
    Success(DeepMerge(defaults, perEnv))
  }

  /** Loads a configuration file over `c`. The file's existence and its
      parsed (template-expanded) contents are inputs. A failed load leaves
      the record as it was: only a successful load yields a new one. */
  function LoadFromFile(c: Config, path: string, fileExists: bool, doc: Value,
                        env: map<string, string>, inspect: Value -> string): (r: Result<Config, LoadError>)
    ensures !fileExists ==> r == Failure(FileNotFound(path))
    ensures r.Failure? && r.error.FileNotFound? ==> !fileExists
    ensures fileExists && Falsy(doc) ==> r == Success(c)
    ensures fileExists && !Falsy(doc) && !doc.Mapping? ==> r == Failure(MalformedDocument)
    ensures r.Success? && IsLowercase(c.logLevel) ==> IsLowercase(r.value.logLevel)
  {
    if !fileExists then
      Failure(FileNotFound(path))
    else
      var merged :- MergedSections(doc, env);
      Success(ApplyHash(c, merged, inspect))
  }

  /** How each field of a loaded record is decided. A non-nil, non-mapping
      value in the active environment's section wins over the `default`
      section. A field that section does not mention takes the `default`
      section's value. An explicit `nil` in the active section hides the
      `default` value, so the record keeps its prior value. A field neither
      section sets also keeps its prior value. `modules` becomes the active
      section's mapping, `default`'s mapping, or the deep merge of the two
      when both are mappings. A non-mapping `modules` in the active section
      leaves the prior `modules` in place. */
  lemma LoadEnvironmentSectionWins(c: Config, path: string, top: Document,
                                   env: map<string, string>, inspect: Value -> string)
    requires Section(top, "default").Success? && Section(top, ActiveEnvName(env)).Success?
    ensures var d := Section(top, "default").value;
            var e := Section(top, ActiveEnvName(env)).value;
            var r := LoadFromFile(c, path, true, Mapping(top), env, inspect);
            && r.Success?
            && (Present(e, "secret_key") && !e["secret_key"].Mapping? ==> r.value.secretKey == e["secret_key"])
            && ("secret_key" !in e && Present(d, "secret_key") ==> r.value.secretKey == d["secret_key"])
            && (Present(e, "session_timeout") && !e["session_timeout"].Mapping? ==>
                  r.value.sessionTimeout == e["session_timeout"])
            && ("session_timeout" !in e && Present(d, "session_timeout") ==>
                  r.value.sessionTimeout == d["session_timeout"])
            && (Present(e, "log_level") && !e["log_level"].Mapping? ==>
                  r.value.logLevel == Downcase(ToS(e["log_level"], inspect)))
            && ("log_level" !in e && Present(d, "log_level") ==>
                  r.value.logLevel == Downcase(ToS(d["log_level"], inspect)))
            && ("modules" !in e && "modules" in d && d["modules"].Mapping? ==>
                  r.value.modules == d["modules"].entries)
            && ("modules" in e && e["modules"].Mapping? && !("modules" in d && d["modules"].Mapping?) ==>
                  r.value.modules == e["modules"].entries)
            && ("secret_key" in e && e["secret_key"].Nil? ==> r.value.secretKey == c.secretKey)
            && ("secret_key" !in e && !Present(d, "secret_key") ==> r.value.secretKey == c.secretKey)
            && ("session_timeout" in e && e["session_timeout"].Nil? ==> r.value.sessionTimeout == c.sessionTimeout)
            && ("session_timeout" !in e && !Present(d, "session_timeout") ==>
                  r.value.sessionTimeout == c.sessionTimeout)
            && ("log_level" in e && e["log_level"].Nil? ==> r.value.logLevel == c.logLevel)
            && ("log_level" !in e && !Present(d, "log_level") ==> r.value.logLevel == c.logLevel)
            && ("modules" in e && e["modules"].Mapping? && "modules" in d && d["modules"].Mapping? ==>
                  r.value.modules == DeepMerge(d["modules"].entries, e["modules"].entries))
            && ("modules" in e && !e["modules"].Mapping? ==> r.value.modules == c.modules)
            && ("modules" !in e && !("modules" in d && d["modules"].Mapping?) ==> r.value.modules == c.modules)
  {
    var d := Section(top, "default").value;
    var e := Section(top, ActiveEnvName(env)).value;
    assert MergedSections(Mapping(top), env) == Success(DeepMerge(d, e));
    DeepMergeSpec(d, e);
  }

  /** With `default` itself as the active environment name the file's
      `default` section is applied as it stands. */
  lemma LoadWithDefaultAsEnvironment(c: Config, path: string, top: Document,
                                     env: map<string, string>, inspect: Value -> string)
    requires ActiveEnvName(env) == "default"
    requires Section(top, "default").Success?
    ensures LoadFromFile(c, path, true, Mapping(top), env, inspect)
         == Success(ApplyHash(c, Section(top, "default").value, inspect))
  {
    MergeIdempotent(Section(top, "default").value);
  }

  /** Loading the same file twice leaves the record as loading it once. */
  lemma LoadTwiceIsLoadOnce(c: Config, path: string, doc: Value,
                            env: map<string, string>, inspect: Value -> string)
    requires LoadFromFile(c, path, true, doc, env, inspect).Success?
    ensures var c1 := LoadFromFile(c, path, true, doc, env, inspect).value;
            LoadFromFile(c1, path, true, doc, env, inspect) == Success(c1)
  {
  }

  /** A file with `default: {session_timeout: 3600}` and
      `production: {secret_key: "abc"}`, loaded with `production` active,
      yields a one-hour session and the secret key `abc`. */
  lemma LoadScenario(path: string, env: map<string, string>, inspect: Value -> string)
    requires ActiveEnvName(env) == "production"
    ensures var doc := Mapping(map["default" := Mapping(map["session_timeout" := Int(3600)]),
                                   "production" := Mapping(map["secret_key" := Str("abc")])]);
            var r := LoadFromFile(NewConfig(), path, true, doc, env, inspect);
            && r.Success?
            && r.value.sessionTimeout == Int(3600)
            && r.value.secretKey == Str("abc")
            && r.value.logLevel == "info"
  {
  }

  /** An explicit `nil` in the active section discards the `default` value:
      `default: {secret_key: "x"}` with `production: {secret_key: ~}` and
      `production` active leaves a fresh record's secret key unset. */
  lemma LoadExplicitNilHidesDefault(path: string, env: map<string, string>, inspect: Value -> string)
    requires ActiveEnvName(env) == "production"
    ensures var doc := Mapping(map["default" := Mapping(map["secret_key" := Str("x")]),
                                   "production" := Mapping(map["secret_key" := Nil])]);
            LoadFromFile(NewConfig(), path, true, doc, env, inspect) == Success(NewConfig())
  {
    var d := map["secret_key" := Str("x")];
    var e := map["secret_key" := Nil];
    var top := map["default" := Mapping(d), "production" := Mapping(e)];
    assert Section(top, "default") == Success(d);
    assert Section(top, "production") == Success(e);
    DeepMergeSpec(d, e);
    assert DeepMerge(d, e) == e;
  }

  /** Module settings from both sections are merged, not replaced:
      `default: {modules: {a: {}}}` with `production: {modules: {b: {}}}` and
      `production` active gives a fresh record `modules == {a: {}, b: {}}`. */
  lemma LoadMergesModuleSettings(path: string, env: map<string, string>, inspect: Value -> string)
    requires ActiveEnvName(env) == "production"
    ensures var doc := Mapping(map["default" := Mapping(map["modules" := Mapping(map["a" := Mapping(map[])])]),
                                   "production" := Mapping(map["modules" := Mapping(map["b" := Mapping(map[])])])]);
            var r := LoadFromFile(NewConfig(), path, true, doc, env, inspect);
            r.Success? && r.value.modules == map["a" := Mapping(map[]), "b" := Mapping(map[])]
  {
    var dm := map["a" := Mapping(map[])];
    var em := map["b" := Mapping(map[])];
    var d := map["modules" := Mapping(dm)];
    var e := map["modules" := Mapping(em)];
    var top := map["default" := Mapping(d), "production" := Mapping(e)];
    assert Section(top, "default") == Success(d);
    assert Section(top, "production") == Success(e);
    DeepMergeSpec(d, e);
    DeepMergeSpec(dm, em);
    assert DeepMerge(dm, em) == map["a" := Mapping(map[]), "b" := Mapping(map[])];
  }
}

=== FILE: environment.dfy ===
/**
 Selection of the active environment name from the process environment,
 which is passed in as a map from variable name to value.
 */
module Environment {

  /** The variables consulted, highest priority first. */
  const EnvNameVariables: seq<string> := ["MODULAR_AUTH_ENV", "RACK_ENV", "RAILS_ENV"]

  /** The name used when none of the variables is set. */
  const FallbackEnvName: string := "development"

  /** The value of the first of `names` that is set in `env`, or `fallback`.
      A variable set to the empty string counts as set, as any string is
      truthy in Ruby. */
  function FirstSet(names: seq<string>, env: map<string, string>, fallback: string): (r: string)
    ensures (forall i | 0 <= i < |names| :: names[i] !in env) ==> r == fallback
    ensures forall i | 0 <= i < |names| && names[i] in env ::
              (forall j | 0 <= j < i :: names[j] !in env) ==> r == env[names[i]]
    ensures r == fallback || exists i | 0 <= i < |names| :: names[i] in env && r == env[names[i]]
  {
    if names == [] then fallback
    else if names[0] in env then env[names[0]]
    else FirstSet(names[1..], env, fallback)
  }

  /** The section name the loader merges over `default`. */
  function ActiveEnvName(env: map<string, string>): (r: string)
    ensures "MODULAR_AUTH_ENV" in env ==> r == env["MODULAR_AUTH_ENV"]
    ensures "MODULAR_AUTH_ENV" !in env && "RACK_ENV" in env ==> r == env["RACK_ENV"]
    ensures "MODULAR_AUTH_ENV" !in env && "RACK_ENV" !in env && "RAILS_ENV" in env ==> r == env["RAILS_ENV"]
    ensures "MODULAR_AUTH_ENV" !in env && "RACK_ENV" !in env && "RAILS_ENV" !in env ==> r == "development"
  {
    assert EnvNameVariables[1] == "RACK_ENV" && EnvNameVariables[2] == "RAILS_ENV";
    FirstSet(EnvNameVariables, env, FallbackEnvName)
  }

  /** Only the three selection variables matter: any other variable can be
      added, removed or changed without changing the name. */
  lemma ActiveEnvNameIgnoresOtherVariables(env: map<string, string>, env': map<string, string>)
    requires forall v | v in EnvNameVariables :: (v in env <==> v in env') && (v in env ==> env[v] == env'[v])
    ensures ActiveEnvName(env) == ActiveEnvName(env')
  {
  }
}

=== FILE: merge.dfy ===
/**
 The right-biased recursive deep merge the loader uses to lay the active
 environment's section over the `default` section.
 */
module Merge {
  import opened Values

  /** What the merge puts at a key of the override: the recursive merge when
      both sides hold mappings, the override's own value otherwise. */
  function Combine(base: Document, over: Document, k: string): Value
    requires k in over
    decreases Mapping(over), 0
  {
    if k in base && base[k].Mapping? && over[k].Mapping? then
      Mapping(DeepMerge(base[k].entries, over[k].entries))
    else
      over[k]
  }

  /** Declarative deep merge: every key of either side, where a key only the
      base holds keeps the base's value. It is the reference definition the
      loop of `DeepMergeHash` is proved equal to. */
  function DeepMerge(base: Document, over: Document): (r: Document)
    ensures r.Keys == base.Keys + over.Keys
    decreases Mapping(over), 1
  {
    map k | k in base.Keys + over.Keys :: if k in over then Combine(base, over, k) else base[k]
  }

  /** The merge as `deep_merge_hash` runs it: copy the base, then walk the override's
      keys, storing at each the recursive merge (when the copy and the
      override both hold mappings there) or the override's value. */
  method DeepMergeHash(base: Document, over: Document) returns (result: Document)
    ensures result.Keys == base.Keys + over.Keys
    ensures result == DeepMerge(base, over)
    decreases Mapping(over)
  {
    result := base;
    var todo := over.Keys;
    while todo != {}
      invariant todo <= over.Keys
      invariant result == DeepMerge(base, over - todo)
      decreases todo
    {
      var key :| key in todo;
      var value := over[key];
      ghost var done := over - todo;
      if key in result && result[key].Mapping? && value.Mapping? {
        var sub := DeepMergeHash(result[key].entries, value.entries);
        result := result[key := Mapping(sub)];
      } else {
        result := result[key := value];
      }
      todo := todo - {key};
      MergeExtend(base, over, done, key);
    }
    assert over - todo == over;
  }

  /** Adding one more override key to a partial merge updates just that key. */
  lemma MergeExtend(base: Document, over: Document, done: Document, key: string)
    requires key in over && key !in done
    requires forall k | k in done :: k in over && done[k] == over[k]
    ensures done[key := over[key]] == over - (over.Keys - done.Keys - {key})
    ensures DeepMerge(base, done[key := over[key]])
         == DeepMerge(base, done)[key := Combine(base, done[key := over[key]], key)]
  {
  }

  // ---------------------------------------------------------------------------
  // Properties of the merge
  // ---------------------------------------------------------------------------

  /** The four promises of the merge at the top level: the result's keys are
      both sides' keys; a key only the base holds keeps the base's value; a
      key of the override whose two sides are not both mappings holds the
      override's value; a key with mappings on both sides holds their merge.
      These clauses unfold `DeepMerge` itself; what makes them a statement
      about the Ruby code is `DeepMergeHash`, whose loop is proved to compute
      `DeepMerge`. */
  lemma DeepMergeSpec(base: Document, over: Document)
    ensures DeepMerge(base, over).Keys == base.Keys + over.Keys
    ensures forall k | k in base && k !in over :: DeepMerge(base, over)[k] == base[k]
    ensures forall k | k in over && !(k in base && base[k].Mapping? && over[k].Mapping?) ::
              DeepMerge(base, over)[k] == over[k]
    ensures forall k | k in over && k in base && base[k].Mapping? && over[k].Mapping? ::
              DeepMerge(base, over)[k] == Mapping(DeepMerge(base[k].entries, over[k].entries))
  {
  }

  /** Merging an empty override gives back the base. */
  lemma MergeEmptyOverride(base: Document)
    ensures DeepMerge(base, map[]) == base
  {
  }

  /** Merging over an empty base gives back the override. */
  lemma MergeEmptyBase(over: Document)
    ensures DeepMerge(map[], over) == over
  {
  }

  /** Where no key holds a mapping on both sides the deep merge is the
      shallow right-biased union. */
  lemma MergeShallow(base: Document, over: Document)
    requires forall k | k in base && k in over :: !(base[k].Mapping? && over[k].Mapping?)
    ensures DeepMerge(base, over) == base + over
  {
  }

  /** Merging a document with itself gives it back, at every depth: this is
      the load with `default` as the active environment name. */
  lemma {:induction false} MergeIdempotent(a: Document)
    ensures DeepMerge(a, a) == a
    decreases Mapping(a)
  {
    forall k | k in a
      ensures DeepMerge(a, a)[k] == a[k]
    {
      if a[k].Mapping? {
        MergeIdempotent(a[k].entries);
      }
    }
  }

  /** `r` carries everything `o` says: every key of `o` is in `r`, holding a
      mapping that again carries the mapping of `o`, or exactly the leaf of `o`. */
  ghost predicate Overlays(r: Document, o: Document)
    decreases Mapping(o), 0
  {
    forall k | k in o :: k in r && Agrees(r[k], o[k])
  }

  ghost predicate Agrees(x: Value, y: Value)
    decreases y, 1
  {
    if y.Mapping? then x.Mapping? && Overlays(x.entries, y.entries) else x == y
  }

  lemma {:induction false} OverlaysReflexive(o: Document)
    ensures Overlays(o, o)
    decreases Mapping(o)
  {
    forall k | k in o
      ensures Agrees(o[k], o[k])
    {
      if o[k].Mapping? {
        OverlaysReflexive(o[k].entries);
      }
    }
  }

  /** The override wins at every depth: each of its leaves, at its path,
      reaches the merged document unchanged. */
  lemma {:induction false} MergeOverlaysOverride(base: Document, over: Document)
    ensures Overlays(DeepMerge(base, over), over)
    decreases Mapping(over)
  {
    var r := DeepMerge(base, over);
    forall k | k in over
      ensures k in r && Agrees(r[k], over[k])
    {
      assert r[k] == Combine(base, over, k);
      if k in base && base[k].Mapping? && over[k].Mapping? {
        MergeOverlaysOverride(base[k].entries, over[k].entries);
      } else if over[k].Mapping? {
        OverlaysReflexive(over[k].entries);
      }
    }
  }

  /** Nested mappings combine key by key: `{a: {x: 1, y: 2}}` under
      `{a: {y: 9}}` gives `{a: {x: 1, y: 9}}`. */
  lemma MergeNestedExample()
    ensures DeepMerge(map["a" := Mapping(map["x" := Int(1), "y" := Int(2)])],
                      map["a" := Mapping(map["y" := Int(9)])])
         == map["a" := Mapping(map["x" := Int(1), "y" := Int(9)])]
  {
    var inner := DeepMerge(map["x" := Int(1), "y" := Int(2)], map["y" := Int(9)]);
    assert inner == map["x" := Int(1), "y" := Int(9)];
  }
}

=== FILE: values.dfy ===
/**
 The parsed configuration document and the Ruby conversions the loader
 applies to its scalars (`to_s`, `downcase`).
 */
module Values {

  /** A node of the document `YAML.safe_load` returns when `Symbol` is the
      only permitted extra class, restricted to the part of that document
      this model covers: a tree of string-keyed mappings, sequences and
      scalars. */
  datatype Value =
    | Nil
    | Bool(b: bool)
    | Int(i: int)
    | Str(s: string)
    | Sym(name: string)
    | Sequence(items: seq<Value>)
    | Mapping(entries: map<string, Value>)

  /** A mapping node's contents: the shape of every section of the file. */
  type Document = map<string, Value>

  /** Ruby truthiness: only `nil` and `false` make `x || {}` take the `{}`. */
  predicate Falsy(v: Value) {
    v.Nil? || v == Bool(false)
  }

  /** `hash[key].nil?` is false: the key is there and its value is not `nil`. */
  predicate Present(h: Document, key: string) {
    key in h && !h[key].Nil?
  }

  // ---------------------------------------------------------------------------
  // `downcase`, restricted to ASCII letters
  // ---------------------------------------------------------------------------

  predicate IsUpper(c: char) {
    'A' <= c <= 'Z'
  }

  function LowerChar(c: char): (r: char)
    ensures IsUpper(c) ==> r as int == c as int + 32 && 'a' <= r <= 'z'
    ensures !IsUpper(c) ==> r == c
    ensures !IsUpper(r)
  {
    if IsUpper(c) then (c as int + 32) as char else c
  }

  /** No upper-case ASCII letter occurs in `s`. */
  predicate IsLowercase(s: string) {
    forall i | 0 <= i < |s| :: !IsUpper(s[i])
  }

  /** `String#downcase`: every upper-case letter replaced by its lower-case
      form, every other character kept in place. */
  function Downcase(s: string): (r: string)
    ensures |r| == |s|
    ensures forall i | 0 <= i < |s| :: r[i] == LowerChar(s[i])
    ensures IsLowercase(r)
  {
    if s == [] then [] else [LowerChar(s[0])] + Downcase(s[1..])
  }

  /** Downcasing changes a string exactly when it holds an upper-case letter. */
  lemma DowncaseFixesLowercase(s: string)
    ensures Downcase(s) == s <==> IsLowercase(s)
  {
  }

  /** Downcasing twice is downcasing once. */
  lemma DowncaseIdempotent(s: string)
    ensures Downcase(Downcase(s)) == Downcase(s)
  {
  }

  // ---------------------------------------------------------------------------
  // `Integer#to_s`
  // ---------------------------------------------------------------------------

  predicate IsDigit(c: char) {
    '0' <= c <= '9'
  }

  function DigitChar(d: nat): (c: char)
    requires d < 10
    ensures IsDigit(c)
  {
    ('0' as int + d) as char
  }

  function DigitValue(c: char): (d: nat)
    requires IsDigit(c)
    ensures d < 10
  {
    c as int - '0' as int
  }

  /** The number a string of decimal digits denotes. */
  function DecimalValue(s: string): nat
    requires forall i | 0 <= i < |s| :: IsDigit(s[i])
  {
    if s == [] then 0 else 10 * DecimalValue(s[..|s| - 1]) + DigitValue(s[|s| - 1])
  }

  /** Decimal digits of `n`, most significant first, without leading zeros. */
  function DecimalDigits(n: nat): (r: string)
    ensures 1 <= |r|
    ensures forall i | 0 <= i < |r| :: IsDigit(r[i])
    ensures |r| > 1 ==> r[0] != '0'
  {
    if n < 10 then [DigitChar(n)] else DecimalDigits(n / 10) + [DigitChar(n % 10)]
  }

  /** Reading the digits back gives the number that was written. */
  lemma {:induction false} DecimalRoundTrip(n: nat)
    ensures DecimalValue(DecimalDigits(n)) == n
  {
    var r := DecimalDigits(n);
    if n >= 10 {
      DecimalRoundTrip(n / 10);
      assert r[..|r| - 1] == DecimalDigits(n / 10);
    }
  }

  /** `Integer#to_s`: an optional minus sign, then the digits of the magnitude. */
  function IntToString(i: int): (r: string)
    ensures i >= 0 ==> (forall k | 0 <= k < |r| :: IsDigit(r[k])) && DecimalValue(r) == i
    ensures i < 0 ==> |r| > 1 && r[0] == '-' && (forall k | 1 <= k < |r| :: IsDigit(r[k]))
    ensures i < 0 ==> DecimalValue(r[1..]) == -i
    ensures 1 <= |r|
    ensures i >= 0 && |r| > 1 ==> r[0] != '0'
    ensures i < 0 ==> r[1] != '0'
  {
    var digits := DecimalDigits(if i < 0 then -i else i);
    DecimalRoundTrip(if i < 0 then -i else i);
    if i < 0 then assert ("-" + digits)[1..] == digits; "-" + digits else digits
  }

  // ---------------------------------------------------------------------------
  // `to_s`
  // ---------------------------------------------------------------------------

  /** Ruby's `to_s` of a document node. Scalars render as Ruby renders them;
      a sequence or a mapping renders as its `inspect` string, which Ruby
      produces in insertion order and which is therefore a parameter here. */
  function ToS(v: Value, inspect: Value -> string): (r: string)
    ensures v.Str? ==> r == v.s
    ensures v.Sym? ==> r == v.name
    ensures v.Nil? ==> r == ""
    ensures v.Bool? ==> r == (if v.b then "true" else "false")
    ensures v.Int? ==> r == IntToString(v.i)
    ensures v.Sequence? || v.Mapping? ==> r == inspect(v)
  {
    match v
    case Nil => ""
    case Bool(b) => if b then "true" else "false"
    case Int(i) => IntToString(i)
    case Str(s) => s
    case Sym(name) => name
    case Sequence(_) => inspect(v)
    case Mapping(_) => inspect(v)
  }
}

=== FILE: wrappers.dfy ===
/** Success/failure results, usable with `:-`, for the loader's error path. */
module Wrappers {

  datatype Result<+T, +E> = Success(value: T) | Failure(error: E) {

    predicate IsFailure() {
      Failure?
    }

    function PropagateFailure<U>(): Result<U, E>
      requires Failure?
    {
      Failure(error)
    }

    function Extract(): T
      requires Success?
    {
      value
    }
  }
}
